=== FILE: README.md ===
# web2pdf client core in Dafny

This project models the core of the web2pdf client library. The library asks
a remote rendering service to turn a URL, an HTML string or a React (JSX)
element into a PDF or a screenshot. The model covers:

- **Operation builders** (`createPdf`, `createScreenshot`). These check that
  exactly one source is given and render JSX through React. They refuse
  `customCss` together with `url`, assemble a request body that leaves out
  falsy members, send it to the operation's endpoint, and read the content
  type and rate-limit counters from the response headers. The two operations
  are one pipeline, `Operations.Create`, parameterised by `Operation`.
- **Transport client** (`Web2PdfClient`). It covers the base-URL default, the
  bearer `Authorization` header, the choice of `fetch` implementation, the POST
  to base URL + endpoint, and how a failed response becomes an error.
- **JSX renderer** (`isReactAvailable`, `isJsxElement`, `renderJsxToHtml`,
  `renderWithReact`). It covers the order in which React is looked for, the
  fail-closed element check, and the wrapping of render failures.

The host JavaScript environment is a value, `Host.Host`. It records whether
`require` and `window` exist, what `require('react')`, `require('react-dom/server')`,
`import('react-dom/server')` and `import("node-fetch")` yield, the `React` and
`ReactDOMServer` globals, and `globalThis.fetch`. React's `isValidElement` and
`renderToString`, and every `fetch`, are oracle functions held in that value.
Each call returns an `ApiClient.Exchange`: the request it sent, if any, and
what it returned or threw. "No request before validation" is therefore a
statement about that first component.

Modules: `Wrappers` (Option/Result), `JsValues` (JavaScript truthiness, JSON
documents), `Decimal` (`parseInt(s, 10)` and integer-to-text), `Errors`
(error kinds and their messages), `Http` (request and response records), `Host`,
`JsxRenderer`, `ApiClient`, `Operations`.

On these points the model follows the code:
- A rejected `fetch` (a network failure) propagates unchanged as
  `NetworkFailure`. Only a non-2xx response is turned into the
  "API request failed" error.
- A rate-limit header that is non-empty but not a number gives a counter
  that is present and holds `NaN`. The counter is not omitted.
- An empty `content-type` header falls back to the default, just like a
  missing one.
- A defined `window` settles React availability by `window.React` alone.
  `globalThis.React` is only consulted when there is neither a loadable
  `require` path nor a `window`.
- An empty string counts as an absent source, because the code filters the
  sources with `Boolean`.

## Model

| member | source | states |
|---|---|---|
| Decimal.ToDecimal | src/client.ts:73-75 | the decimal text of a status code is non-empty, all digits, without leading zeros, and denotes the code |
| Decimal.ParseInt | src/create-pdf.ts:79-84 | `parseInt` of text containing no digit is NaN |
| Decimal.ParseIntOfIntToString | src/create-pdf.ts:79-84 | `parseInt` reads back any integer written in decimal, whatever non-digit text follows it |
| Decimal.ParseIntOfSignedDigits | src/create-pdf.ts:79-84 | `parseInt` of an optional `+`/`-` sign, digits (leading zeros allowed) and any text not starting with a digit is the signed value of those digits |
| Decimal.ParseIntOfNonDigitStart | src/create-pdf.ts:79-84 | `parseInt` of text whose first character after an optional sign is not a digit (and, unsigned, is neither white space nor a sign) is NaN, even when digits come later, as for `"x5"` or `"--5"` |
| Decimal.ParseIntSkipsWhitespace | src/create-pdf.ts:79-84 | leading white space does not change what `parseInt` reads |
| Errors.RequestFailedMessageCarriesStatus | src/client.ts:72-76 | the failure message starts with "API request failed: ", the status code can be parsed back from right after that prefix, and the message ends with the serialised error body |
| Errors.RenderFailedMessageWrapsReason | src/jsx-renderer.ts:74-78 | a render failure's message is exactly the fixed prefix, then the original reason, then the remediation advice |
| JsxRenderer.AvailabilityIsFirstProbe | src/jsx-renderer.ts:12-42 | availability is the answer of the first probe that answers (require, then window, then globalThis), and false when none does |
| JsxRenderer.WindowShadowsGlobal | src/jsx-renderer.ts:25-36 | once the require probe fails and `window` exists, availability is `window.React` and `globalThis.React` cannot change it |
| JsxRenderer.IsJsxElement | src/jsx-renderer.ts:101-137 | a true answer implies React is available and the React consulted said yes to the value |
| JsxRenderer.IsJsxElementCases | src/jsx-renderer.ts:101-137 | the check is false without React, false without the consulted React, and false when `isValidElement` throws; it is true when an available React says yes |
| JsxRenderer.RenderWithReact | src/jsx-renderer.ts:47-80 | once a `react-dom/server` is found, a successful `renderToString` yields its HTML and a throwing one yields a render failure carrying its reason; a missing server is a render failure with its own reason; nothing else can come out |
| JsxRenderer.RenderJsxToHtml | src/jsx-renderer.ts:86-96 | without React it fails with the "not available" error and attempts no render; with React it is exactly `renderWithReact` |
| JsxRenderer.GlobalOnlyReactNeverRenders | src/jsx-renderer.ts:31-71 | with React only on `globalThis`, React counts as available but rendering always fails with "Unable to determine environment" |
| JsxRenderer.BrowserWithoutDomServer | src/jsx-renderer.ts:62-67 | in a browser without `window.ReactDOMServer`, rendering fails with the wrapped "ReactDOMServer is not available" reason |
| JsxRenderer.RequireWithoutReactRejectsEveryElement | src/jsx-renderer.ts:109-116 | when `require` exists but cannot load `react`, no value is accepted as an element |
| ApiClient.NewClient | src/client.ts:11-15 | the base URL is the configured one when it is non-empty, else "https://web2pdf.dev", so it is never empty |
| ApiClient.CredentialsRoundTrip | src/client.ts:88-93 | `getCredentials` returns the id and secret given to the constructor |
| ApiClient.AuthHeaders | src/client.ts:20-25 | exactly two headers: a JSON `Content-Type` and an `Authorization` value beginning with "Bearer " |
| ApiClient.BearerRoundTrip | src/client.ts:20-25 | when the id has no colon, both credentials can be read back from the `Authorization` value |
| ApiClient.ColonJoinIsAmbiguous | src/client.ts:22 | for any id and secret text, moving a colon-separated part from the end of the id to the front of the secret leaves the `Authorization` value unchanged |
| ApiClient.SelectFetch | src/client.ts:36-57 | without `window`, native fetch wins over node-fetch, node-fetch is used when it is the only one, and the "fetch is not available" error comes exactly when neither exists; a browser uses the global fetch and fails exactly when it is missing |
| ApiClient.SelectFetchIsFirstOffered | src/client.ts:36-57 | for every host, the chosen fetch is the first one the host offers in priority order (native, node-fetch without `window`; global fetch in a browser), and selection fails exactly when none is offered |
| ApiClient.ErrorData | src/client.ts:66-71 | the error body is the parsed JSON, or an object whose one and only member is `message`, holding the status text, when the body is not JSON |
| ApiClient.Deliver | src/client.ts:65-82 | a status in 200-299 returns the body bytes and headers unchanged; any other status throws a request error with that status, status text and error body |
| ApiClient.Request | src/client.ts:30-83 | the request is sent exactly when a fetch is found; it is a POST to base URL + endpoint with the auth headers and the given body; a rejected fetch propagates and a response goes through `Deliver` |
| Operations.ResolveHtml | src/create-pdf.ts:43-54 | without JSX the HTML is the `html` option; an invalid element fails; a valid one is replaced by the renderer's output or its error |
| Operations.AssembleBody | src/create-pdf.ts:63-68 | looking up url, html, customCss and the options key in the body gives each value exactly when it is truthy, no other key is present, each key appears at most once, and keys come in the spread order url, html, customCss, options |
| Operations.BodyInSpreadOrder | src/create-pdf.ts:63-68 | the members of the body are ordered as the object spreads write them: url, then html, then customCss, then the options key |
| Operations.PlanRequest | src/create-pdf.ts:37-68 | wrong source count, invalid JSX, and customCss with url each fail with their error; a render error passes through unchanged; otherwise the body is the one assembled from url, the resolved HTML, customCss and the options, and it never holds both url and html |
| Operations.UrlSourceBody | src/create-pdf.ts:57-68 | a URL source without CSS gives a body holding the URL and the options, and no html or customCss |
| Operations.HtmlSourceBody | src/create-screenshot.ts:59-64 | an HTML source gives a body holding the HTML, the CSS when given and the options when given, and never a URL |
| Operations.JsxSourceBody | src/create-screenshot.ts:43-64 | a rendered JSX source gives a body whose html is the rendered HTML when that is non-empty, the CSS and options when given, and no URL |
| Operations.RenderedJsxReachesBody | src/create-pdf.ts:45-68 | with React loadable through `require`, whichever react-dom/server module is found (dynamic import or `require`), an element React accepts is sent as the non-empty HTML that module's `renderToString` produces |
| Operations.EmptyRenderSendsNoSource | src/create-pdf.ts:45-68 | JSX that renders to "" passes every check, but the body then has neither url nor html |
| Operations.SameValidationForBothOperations | src/create-screenshot.ts:37-57 | the PDF and screenshot operations refuse exactly the same inputs with the same errors |
| Operations.RateLimit | src/create-pdf.ts:79-84 | a rate-limit counter is present exactly when its header is non-empty, and is then `parseInt` of the header |
| Operations.RateLimitRoundTrip | src/create-screenshot.ts:75-80 | a header holding an integer in decimal gives that integer |
| Operations.NonDigitStartRateLimit | src/create-pdf.ts:79-97 | a header such as `"x5"` or `"-x5"`, whose first character after an optional sign is not a digit, gives a present NaN counter |
| Operations.NonNumericRateLimit | src/create-pdf.ts:79-97 | a non-empty header without digits gives a present NaN counter, not an absent one |
| Operations.MapResult | src/create-pdf.ts:75-99 | data passes through; the content type is the non-empty header or the operation default, so it is never empty; the counters follow `RateLimit` |
| Operations.PdfResponseWithRateLimits | src/create-pdf.ts:75-99 | any response whose headers are application/pdf, 42 and 100 gives content type "application/pdf" and counters 42 and 100 |
| Operations.BareResponse | src/create-screenshot.ts:71-95 | a response without headers gives the default content type and no counters |
| Operations.Create | src/create-pdf.ts:31-100 | a failed check returns its error with no request sent; otherwise the planned body goes to base URL + endpoint, and the reply is mapped or the transport error passed on |
| Operations.ValidationBeforeRequest | src/create-pdf.ts:37-73 | a validation error never comes with a sent request |
| Operations.CreatePdf | src/create-pdf.ts:31-100 | a wrong source count fails without a request; requests go to "/api/create/pdf"; a result always has a content type |
| Operations.CreateScreenshot | src/create-screenshot.ts:31-96 | a wrong source count fails without a request; requests go to "/api/create/screen-shot"; a result always has a content type |

## Left out

- Network I/O and `async`/`await`. Every `fetch` is an oracle in `Host.Host`, and each call is one pure function. A rejected `arrayBuffer()` (src/client.ts:80) is not modelled. A rejected `json()` is modelled as a response whose `json` is `None`.
- `JSON.stringify` formatting. The request carries the JSON value itself, which is equivalent because serialisation is injective. The request-error message takes `stringify` as a parameter.
- React itself. `isValidElement` and `renderToString` are oracle functions that return a value or throw a message.
- The fields of `PdfOptions` and `ScreenshotOptions` (src/types.ts). They are carried as the members of an opaque JSON object; only their presence matters to the core.
- src/index.ts and `createClient`. They only re-export and wrap the constructor, and `NewClient` models the constructor.
- Decimal.ParseInt: returns the exact integer. JavaScript rounds a run of more than about 15 digits to the nearest double, and reads "-0" as negative zero.
- JsxRenderer.IsReactAvailable: property reads never throw in the model, so its outer catch-all has nothing to catch. The host is a snapshot taken per call, so `require('react')` gives the same answer each time it is asked.
- `globalThis` always exists, as in every current JavaScript engine. This makes the final `return false` of `isJsxElement` unreachable. `window.React` and `globalThis.React` are independent in the model, although in a browser they are the same binding.
- Header names. The response headers are keyed by lower-case name, as the Fetch `Headers` object matches them case-insensitively.
- A `globalThis.fetch` that is defined but not a function. The missing browser `fetch` is modelled as the engine's "fetch is not defined" error.

=== FILE: api_client.dfy ===
/** `Web2PdfClient`: credentials, base URL, and the single POST request
    every operation goes through. */
module ApiClient {
  import opened Wrappers
  import opened JsValues
  import opened Errors
  import opened Http
  import opened Host

  const DefaultBaseUrl := "https://web2pdf.dev"
  const BearerPrefix := "Bearer "

  /** `Web2PdfConfig`: the base URL is optional. */
  datatype Config = Config(apiId: string, secretKey: string, baseUrl: Option<string>)

  datatype Credentials = Credentials(apiId: string, secretKey: string)

  /** A constructed client; nothing in it changes after construction. */
  datatype Client = Client(apiId: string, secretKey: string, baseUrl: string)

  /** `new Web2PdfClient(config)`: a base URL that is absent or empty falls
      back to the production service, so a client never has an empty one. */
  function NewClient(config: Config): (c: Client)
    ensures c.baseUrl != ""
    ensures Present(config.baseUrl) ==> c.baseUrl == config.baseUrl.value
    ensures !Present(config.baseUrl) ==> c.baseUrl == DefaultBaseUrl
  {
    Client(config.apiId, config.secretKey,
      if Present(config.baseUrl) then config.baseUrl.value else DefaultBaseUrl)
  }

  /** `getCredentials()` */
  function GetCredentials(c: Client): Credentials {
    Credentials(c.apiId, c.secretKey)
  }

  /** The credentials a client hands back are the ones it was built with. */
  lemma CredentialsRoundTrip(config: Config)
    ensures GetCredentials(NewClient(config)) == Credentials(config.apiId, config.secretKey)
  {
  }

  /** `getAuthHeaders()`: exactly an `Authorization` header carrying both
      credentials as a bearer token, and a JSON `Content-Type`. */
  function AuthHeaders(c: Client): (r: map<string, string>)
    ensures r.Keys == {"Authorization", "Content-Type"}
    ensures r["Content-Type"] == "application/json"
    ensures |BearerPrefix| <= |r["Authorization"]| && r["Authorization"][..|BearerPrefix|] == BearerPrefix
  {
    map["Authorization" := BearerPrefix + c.apiId + ":" + c.secretKey,
        "Content-Type" := "application/json"]
  }

  /** `s` split at its first colon. */
  function SplitAtColon(s: string): (r: Option<(string, string)>)
    ensures r.Some? ==> s == r.value.0 + ":" + r.value.1 && ':' !in r.value.0
    ensures r.None? ==> ':' !in s
  {
    if s == [] then None
    else if s[0] == ':' then Some(([], s[1..]))
    else
      match SplitAtColon(s[1..])
      case None => None
      case Some((id, secret)) => Some(([s[0]] + id, secret))
  }

  /** How a server reads the credentials back out of the `Authorization`
      value: the text after the bearer prefix, split at its first colon. */
  function ParseBearer(value: string): Option<Credentials> {
    if |value| < |BearerPrefix| || value[..|BearerPrefix|] != BearerPrefix then None
    else
      match SplitAtColon(value[|BearerPrefix|..])
      case None => None
      case Some((id, secret)) => Some(Credentials(id, secret))
  }

  lemma {:induction false} SplitAtColonOfJoin(id: string, secret: string)
    requires ':' !in id
    ensures SplitAtColon(id + ":" + secret) == Some((id, secret))
  {
    if id != [] {
      assert (id + ":" + secret)[1..] == id[1..] + ":" + secret;
      SplitAtColonOfJoin(id[1..], secret);
      assert [id[0]] + id[1..] == id;
    } else {
      assert id + ":" + secret == ":" + secret;
    }
  }

  /** Round trip: as long as the API id has no colon in it, both credentials
      can be read back from the `Authorization` header. */
  lemma BearerRoundTrip(c: Client)
    requires ':' !in c.apiId
    ensures ParseBearer(AuthHeaders(c)["Authorization"]) == Some(Credentials(c.apiId, c.secretKey))
  {
    var value := AuthHeaders(c)["Authorization"];
    assert value[|BearerPrefix|..] == c.apiId + ":" + c.secretKey;
    SplitAtColonOfJoin(c.apiId, c.secretKey);
  }

  /** A colon in the API id makes the header ambiguous: moving the part of
      the id after a colon to the front of the secret sends the same
      `Authorization` value. */
  lemma ColonJoinIsAmbiguous(a: string, b: string, secret: string, baseUrl: string)
    ensures AuthHeaders(Client(a + ":" + b, secret, baseUrl))["Authorization"]
         == AuthHeaders(Client(a, b + ":" + secret, baseUrl))["Authorization"]
  {
    assert BearerPrefix + (a + ":" + b) + ":" + secret == BearerPrefix + a + ":" + (b + ":" + secret);
  }

  /** Which `fetch` a request goes through. */
  datatype FetchSource = NativeFetch | NodeFetch | BrowserFetch

  /** The `fetch` named by `via` exists in the host. */
  predicate Offers(h: Host, via: FetchSource) {
    match via
    case NativeFetch => h.global.fetch.Some?
    case NodeFetch => h.nodeFetch.Some?
    case BrowserFetch => h.global.fetch.Some?
  }

  function TransportOf(h: Host, via: FetchSource): Transport
    requires Offers(h, via)
  {
    match via
    case NativeFetch => h.global.fetch.value
    case NodeFetch => h.nodeFetch.value
    case BrowserFetch => h.global.fetch.value
  }

  /** The choice of `fetch`, made anew on every request: without a `window`,
      the native `globalThis.fetch`, else `node-fetch`, else an environment
      error; in a browser, the global `fetch`, which must be defined. */
  function SelectFetch(h: Host): (r: Result<FetchSource, Error>)
    ensures r.Success? ==> Offers(h, r.value)
    ensures r.Success? ==> (r.value == BrowserFetch <==> h.window.Some?)
    ensures h.window.None? && h.global.fetch.Some? ==> r == Success(NativeFetch)
    ensures r == Failure(FetchUnavailable) <==>
      h.window.None? && h.global.fetch.None? && h.nodeFetch.None?
    ensures h.window.None? && h.global.fetch.None? && h.nodeFetch.Some? ==> r == Success(NodeFetch)
    ensures r == Failure(FetchNotDefined) <==> h.window.Some? && h.global.fetch.None?
    ensures r.Failure? ==> r.error == FetchUnavailable || r.error == FetchNotDefined
  {
    if h.window.None? then
      if h.global.fetch.Some? then Success(NativeFetch)
      else if h.nodeFetch.Some? then Success(NodeFetch)
      else Failure(FetchUnavailable)
    else if h.global.fetch.Some? then Success(BrowserFetch)
    else Failure(FetchNotDefined)
  }

  /** The `fetch` implementations a host may use, most preferred first:
      without a `window`, the native one and then `node-fetch`; in a browser,
      only the global `fetch`. */
  function FetchPriority(h: Host): seq<FetchSource> {
    if h.window.None? then [NativeFetch, NodeFetch] else [BrowserFetch]
  }

  /** The first source in `sources` that the host offers. */
  function FirstOffered(h: Host, sources: seq<FetchSource>): (r: Option<FetchSource>)
    ensures r.Some? ==> r.value in sources && Offers(h, r.value)
    ensures r.None? <==> forall i :: 0 <= i < |sources| ==> !Offers(h, sources[i])
  {
    if sources == [] then None
    else if Offers(h, sources[0]) then Some(sources[0])
    else FirstOffered(h, sources[1..])
  }

  /** For every host, the request goes through the most preferred `fetch`
      the host offers, and it fails exactly when the host offers none. */
  lemma SelectFetchIsFirstOffered(h: Host)
    ensures SelectFetch(h).Success? <==> FirstOffered(h, FetchPriority(h)).Some?
    ensures SelectFetch(h).Success? ==> SelectFetch(h).value == FirstOffered(h, FetchPriority(h)).value
  {
    var p := FetchPriority(h);
    if h.window.None? {
      assert p[1..] == [NodeFetch];
      assert p[1..][1..] == [];
    } else {
      assert p[1..] == [];
    }
  }

  /** A request handed to a `fetch`. */
  datatype Sent = Sent(via: FetchSource, request: HttpRequest)

  /** One call: the request sent, if one was, and what the call returned or threw. */
  datatype Exchange<T> = Exchange(sent: Option<Sent>, result: Result<T, Error>)

  /** What `request` returns: the body bytes and the response headers. */
  datatype Reply = Reply(data: seq<bv8>, headers: map<string, string>)

  /** The error body a failed request reports: the response's JSON, or an
      object whose only member is the status text when the body is not JSON. */
  function ErrorData(resp: Response): (data: Json)
    ensures resp.json.Some? ==> data == resp.json.value
    ensures resp.json.None? ==>
      && data.JObject?
      && |data.fields| == 1
      && Lookup(data.fields, "message") == Some(JString(resp.statusText))
  {
    resp.json.GetOr(JObject([("message", JString(resp.statusText))]))
  }

  /** How `request` treats the response: a status outside 200-299 is thrown
      as a request error, anything else gives back the body bytes and the
      headers untouched. */
  function Deliver(resp: Response): (r: Result<Reply, Error>)
    ensures r.Success? <==> resp.Ok()
    ensures r.Success? ==> r.value.data == resp.bytes && r.value.headers == resp.headers
    ensures r.Failure? ==>
      r.error.RequestFailed? && r.error.status == resp.status && r.error.statusText == resp.statusText
    ensures r.Failure? ==> r.error.errorData == ErrorData(resp)
  {
    if !resp.Ok() then Failure(RequestFailed(resp.status, resp.statusText, ErrorData(resp)))
    else Success(Reply(resp.bytes, resp.headers))
  }

  /** `client.request(endpoint, body)`: a POST of `body` to the base URL and
      endpoint written one after the other, with the client's headers. No
      request is sent when no `fetch` can be found; a rejected `fetch`
      propagates unchanged. */
  function Request(c: Client, endpoint: string, body: Json, h: Host): (x: Exchange<Reply>)
    ensures x.sent.Some? <==> SelectFetch(h).Success?
    ensures x.sent.None? ==> x.result == Failure(SelectFetch(h).error)
    ensures x.sent.Some? ==>
      && x.sent.value.via == SelectFetch(h).value
      && x.sent.value.request.url == c.baseUrl + endpoint
      && x.sent.value.request.verb == "POST"
      && x.sent.value.request.headers == AuthHeaders(c)
      && x.sent.value.request.body == body
    ensures x.sent.Some? ==>
      var outcome := TransportOf(h, x.sent.value.via)(x.sent.value.request);
      && (outcome.Failure? ==> x.result == Failure(NetworkFailure(outcome.error)))
      && (outcome.Success? ==> x.result == Deliver(outcome.value))
  {
    match SelectFetch(h)
    case Failure(e) => Exchange(None, Failure(e))
    case Success(via) =>
      var request := HttpRequest(c.baseUrl + endpoint, "POST", AuthHeaders(c), body);
      var result :=
        match TransportOf(h, via)(request)
        case Failure(reason) => Failure(NetworkFailure(reason))
        case Success(resp) => Deliver(resp);
      Exchange(Some(Sent(via, request)), result)
  }
}

=== FILE: decimal.dfy ===
/** Base-10 integers as JavaScript reads and writes them: `parseInt(s, 10)`
    for the rate-limit headers, and the decimal text of a status code that a
    template literal produces. */
module Decimal {

  predicate IsDigit(c: char) {
    '0' <= c <= '9'
  }

  predicate AllDigits(s: string) {
    forall i :: 0 <= i < |s| ==> IsDigit(s[i])
  }

  function DigitValue(c: char): (d: nat)
    requires IsDigit(c)
    ensures d < 10
  {
    c as int - '0' as int
  }

  function DigitChar(d: nat): (c: char)
    requires d < 10
    ensures IsDigit(c) && DigitValue(c) == d
  {
    ('0' as int + d) as char
  }

  /** The number a string of decimal digits denotes, most significant first. */
  function Value(s: string): nat
    requires AllDigits(s)
  {
    if s == [] then 0 else Value(s[..|s| - 1]) * 10 + DigitValue(s[|s| - 1])
  }

  /** `String(n)` for a non-negative integer: its canonical decimal text,
      without leading zeros, which reads back as `n`. */
  function ToDecimal(n: nat): (r: string)
    ensures r != [] && AllDigits(r)
    ensures Value(r) == n
    ensures n == 0 ==> r == "0"
    ensures n > 0 ==> r[0] != '0'
  {
    if n < 10 then [DigitChar(n)]
    else
      var prefix := ToDecimal(n / 10);
      var r := prefix + [DigitChar(n % 10)];
      assert r[..|r| - 1] == prefix;
      r
  }

  /** `String(n)` for any integer. */
  function IntToString(n: int): string {
    if n < 0 then "-" + ToDecimal(-n) else ToDecimal(n)
  }

  /** The characters `parseInt` skips before the number: the ECMAScript
      WhiteSpace and LineTerminator code points. */
  predicate IsJsWhitespace(c: char) {
    || c == '\t' || c == '\n' || c == '\U{B}' || c == '\U{C}' || c == '\r' || c == ' '
    || c == '\U{A0}' || c == '\U{1680}' || ('\U{2000}' <= c <= '\U{200A}')
    || c == '\U{2028}' || c == '\U{2029}' || c == '\U{202F}' || c == '\U{205F}'
    || c == '\U{3000}' || c == '\U{FEFF}'
  }

  /** `s` without its leading white space. */
  function TrimStart(s: string): (r: string)
    ensures |r| <= |s| && r == s[|s| - |r|..]
    ensures r == [] || !IsJsWhitespace(r[0])
    ensures forall i :: 0 <= i < |s| - |r| ==> IsJsWhitespace(s[i])
  {
    if s != [] && IsJsWhitespace(s[0]) then TrimStart(s[1..]) else s
  }

  /** The longest prefix of `s` made of decimal digits. */
  function LeadingDigits(s: string): (r: string)
    ensures |r| <= |s| && r == s[..|r|]
    ensures AllDigits(r)
    ensures |r| == |s| || !IsDigit(s[|r|])
  {
    if s != [] && IsDigit(s[0]) then [s[0]] + LeadingDigits(s[1..]) else []
  }

  /** What `parseInt` returns: an integer, or `NaN` when no digit follows the
      optional white space and sign. */
  datatype Parsed = Int(n: int) | NotANumber

  /** The unsigned part of `parseInt`: the leading run of digits, if any. */
  function ParseDigits(u: string): (r: Parsed)
    ensures r.Int? ==> r.n >= 0
    ensures r == NotANumber <==> u == [] || !IsDigit(u[0])
  {
    var digits := LeadingDigits(u);
    if digits == [] then NotANumber else Int(Value(digits))
  }

  /** `parseInt` after the white space: an optional sign, then the digits. */
  function ParseSigned(t: string): (r: Parsed)
    ensures (forall i :: 0 <= i < |t| ==> !IsDigit(t[i])) ==> r == NotANumber
  {
    if t != [] && t[0] == '-' then
      match ParseDigits(t[1..])
      case Int(v) => Int(-v)
      case NotANumber => NotANumber
    else if t != [] && t[0] == '+' then ParseDigits(t[1..])
    else ParseDigits(t)
  }

  /** `parseInt(s, 10)`: skip white space, take an optional sign, read the
      longest run of digits and ignore whatever follows it. */
  function ParseInt(s: string): (r: Parsed)
    ensures (forall i :: 0 <= i < |s| ==> !IsDigit(s[i])) ==> r == NotANumber
  {
    ParseSigned(TrimStart(s))
  }

  /** Digits followed by anything that does not start with a digit: the
      digits are exactly the leading run. */
  lemma {:induction false} LeadingDigitsOfDigits(d: string, rest: string)
    requires AllDigits(d)
    requires rest == [] || !IsDigit(rest[0])
    ensures LeadingDigits(d + rest) == d
  {
    if d == [] {
      assert d + rest == rest;
    } else {
      assert (d + rest)[1..] == d[1..] + rest;
      LeadingDigitsOfDigits(d[1..], rest);
    }
  }

  /** Text that starts with something other than white space is left alone. */
  lemma TrimStartKeeps(s: string)
    requires s != [] && !IsJsWhitespace(s[0])
    ensures TrimStart(s) == s
  {
  }

  /** The digits of `n`, followed by text that does not start with a digit,
      read back as `n`. */
  lemma {:induction false} ParseDigitsOfDecimal(m: nat, rest: string)
    requires rest == [] || !IsDigit(rest[0])
    ensures ParseDigits(ToDecimal(m) + rest) == Int(m)
  {
    LeadingDigitsOfDigits(ToDecimal(m), rest);
  }

  /** Round trip: `parseInt` reads back the integer `String(n)` wrote, even
      when text that does not start with a digit follows it. */
  lemma {:induction false} ParseIntOfIntToString(n: int, rest: string)
    requires rest == [] || !IsDigit(rest[0])
    ensures ParseInt(IntToString(n) + rest) == Int(n)
  {
    var m: nat := if n < 0 then -n else n;
    var sign := if n < 0 then "-" else "";
    var d := ToDecimal(m);
    assert IntToString(n) + rest == sign + d + rest;
    ParseIntOfSignedDigits(sign, d, rest);
  }

  lemma NumberStartIsNotWhitespace(c: char)
    requires IsDigit(c) || c == '+' || c == '-'
    ensures !IsJsWhitespace(c)
  {
  }

  /** `parseInt` of a sign character followed by text: the sign applied to
      what the text reads as without it. */
  lemma ParseIntOfSignChar(c: char, u: string, v: int)
    requires c == '+' || c == '-'
    requires ParseDigits(u) == Int(v)
    ensures ParseInt([c] + u) == Int(if c == '-' then -v else v)
  {
    var s := [c] + u;
    assert s[0] == c && s[1..] == u;
    NumberStartIsNotWhitespace(c);
    TrimStartKeeps(s);
  }

  /** The digit reader on digits and text that does not start with a digit. */
  lemma ParseDigitsOfDigits(d: string, rest: string)
    requires d != [] && AllDigits(d)
    requires rest == [] || !IsDigit(rest[0])
    ensures ParseDigits(d + rest) == Int(Value(d))
  {
    LeadingDigitsOfDigits(d, rest);
  }

  /** `parseInt` of an optional sign, a run of digits (leading zeros
      allowed) and text that does not start with a digit: the signed value
      of the digits. */
  lemma {:induction false} ParseIntOfSignedDigits(sign: string, d: string, rest: string)
    requires sign == "" || sign == "+" || sign == "-"
    requires d != [] && AllDigits(d)
    requires rest == [] || !IsDigit(rest[0])
    ensures ParseInt(sign + d + rest) == Int(if sign == "-" then -(Value(d) as int) else Value(d) as int)
  {
    ParseDigitsOfDigits(d, rest);
    ParseIntOfSignedText(sign, d, rest, Value(d));
  }

  /** `parseInt` of an optional sign followed by text the digit reader
      accepts: the sign applied to what it reads. */
  lemma ParseIntOfSignedText(sign: string, d: string, rest: string, v: int)
    requires sign == "" || sign == "+" || sign == "-"
    requires ParseDigits(d + rest) == Int(v)
    ensures ParseInt(sign + d + rest) == Int(if sign == "-" then -v else v)
  {
    var u := d + rest;
    if sign == "" {
      assert sign + d + rest == u;
      assert sign + u == u;
      NumberStartIsNotWhitespace(u[0]);
      TrimStartKeeps(u);
    } else {
      assert sign + d + rest == [sign[0]] + u;
      ParseIntOfSignChar(sign[0], u, v);
    }
  }

  /** `parseInt` of text whose first character after an optional sign is
      not a digit (and, without a sign, is neither white space nor a sign):
      `NaN`, whatever digits come later. */
  lemma ParseIntOfNonDigitStart(sign: string, rest: string)
    requires sign == "" || sign == "+" || sign == "-"
    requires rest == [] || !IsDigit(rest[0])
    requires sign == "" && rest != [] ==> !IsJsWhitespace(rest[0]) && rest[0] != '+' && rest[0] != '-'
    ensures ParseInt(sign + rest) == NotANumber
  {
    var s := sign + rest;
    if s != [] {
      if sign != "" {
        assert s[0] == sign[0] && s[1..] == rest;
        NumberStartIsNotWhitespace(sign[0]);
      } else {
        assert s == rest;
      }
      TrimStartKeeps(s);
    }
  }

  /** Leading white space is exactly what `TrimStart` removes. */
  lemma {:induction false} TrimStartSkipsWhitespace(w: string, s: string)
    requires forall i :: 0 <= i < |w| ==> IsJsWhitespace(w[i])
    ensures TrimStart(w + s) == TrimStart(s)
  {
    if w != [] {
      assert (w + s)[1..] == w[1..] + s;
      TrimStartSkipsWhitespace(w[1..], s);
    } else {
      assert w + s == s;
    }
  }

  /** `parseInt` ignores any white space in front of the number. */
  lemma {:induction false} ParseIntSkipsWhitespace(w: string, s: string)
    requires forall i :: 0 <= i < |w| ==> IsJsWhitespace(w[i])
    ensures ParseInt(w + s) == ParseInt(s)
  {
    TrimStartSkipsWhitespace(w, s);
  }
}

=== FILE: errors.dfy ===
/** The errors the client library throws, and the message each one carries. */
module Errors {
  import opened Wrappers
  import opened JsValues
  import opened Decimal

  datatype Error =
      // Validation: the caller's options are wrong; raised before any request.
    | WrongSourceCount
    | InvalidJsx
    | CssWithUrl
      // Capability: React cannot be used to turn JSX into HTML.
    | ReactUnavailable
    | RenderFailed(reason: string)
      // Environment: no `fetch` to send the request with.
    | FetchUnavailable
    | FetchNotDefined
      // Transport: `fetch` itself rejected, and its error propagates as is.
    | NetworkFailure(reason: string)
      // Request: the service answered with a status outside 200-299.
    | RequestFailed(status: nat, statusText: string, errorData: Json)
  {
    /** The errors raised by checking the caller's options. */
    predicate IsValidation() {
      WrongSourceCount? || InvalidJsx? || CssWithUrl?
    }
  }

  const SourceCountMessage := "Exactly one of url, html, or jsx must be provided"
  const InvalidJsxMessage :=
    "Invalid JSX element provided. Make sure React is available and the element is a valid React element."
  const CssWithUrlMessage := "customCss can only be used with html or jsx, not with url"
  const ReactUnavailableMessage :=
    "React is not available in this environment. "
    + "To use JSX rendering, please install react and react-dom: npm install react react-dom. "
    + "Alternatively, pass HTML string directly instead of JSX element."
  const RenderFailedPrefix := "Failed to render JSX with React: "
  const RenderRemedy :=
    ". Make sure react and react-dom are installed and React is available in your environment."
  const FetchUnavailableMessage :=
    "fetch is not available. Please use Node.js 18+ or install node-fetch: npm install node-fetch"
  const FetchNotDefinedMessage := "fetch is not defined"
  const RequestFailedPrefix := "API request failed: "

  /** The `message` of the thrown `Error`. `stringify` stands for
      `JSON.stringify`, whose exact output is not part of this model. */
  function Message(e: Error, stringify: Json -> string): string {
    match e
    case WrongSourceCount => SourceCountMessage
    case InvalidJsx => InvalidJsxMessage
    case CssWithUrl => CssWithUrlMessage
    case ReactUnavailable => ReactUnavailableMessage
    case RenderFailed(reason) => RenderFailedPrefix + reason + RenderRemedy
    case FetchUnavailable => FetchUnavailableMessage
    case FetchNotDefined => FetchNotDefinedMessage
    case NetworkFailure(reason) => reason
    case RequestFailed(status, statusText, data) =>
      RequestFailedPrefix + ToDecimal(status) + " " + statusText + ". " + stringify(data)
  }

  /** A failed request's message starts with the fixed prefix followed by the
      status code in decimal, so that `parseInt` of what follows the prefix
      gives the status back; the message ends with the serialised error body. */
  lemma {:induction false} RequestFailedMessageCarriesStatus(status: nat, statusText: string, data: Json, stringify: Json -> string)
    ensures var m := Message(RequestFailed(status, statusText, data), stringify);
      && |RequestFailedPrefix| <= |m|
      && m[..|RequestFailedPrefix|] == RequestFailedPrefix
      && ParseInt(m[|RequestFailedPrefix|..]) == Int(status)
      && |stringify(data)| <= |m|
      && m[|m| - |stringify(data)|..] == stringify(data)
  {
    var d := ToDecimal(status);
    var rest := " " + statusText + ". " + stringify(data);
    var m := Message(RequestFailed(status, statusText, data), stringify);
    assert m == RequestFailedPrefix + (d + rest);
    JoinParts(RequestFailedPrefix, d + rest);
    assert m == (RequestFailedPrefix + d + " " + statusText + ". ") + stringify(data);
    JoinParts(RequestFailedPrefix + d + " " + statusText + ". ", stringify(data));
    assert d == IntToString(status);
    ParseIntOfIntToString(status, rest);
  }

  /** Both parts of a concatenation can be sliced back out of it. */
  lemma JoinParts(a: string, b: string)
    ensures (a + b)[..|a|] == a
    ensures (a + b)[|a|..] == b
    ensures (a + b)[|a + b| - |b|..] == b
  {
  }

  /** A render failure keeps the underlying reason, between the fixed prefix
      and the remediation advice. */
  lemma RenderFailedMessageWrapsReason(reason: string, stringify: Json -> string)
    ensures var m := Message(RenderFailed(reason), stringify);
      && |m| == |RenderFailedPrefix| + |reason| + |RenderRemedy|
      && m[..|RenderFailedPrefix|] == RenderFailedPrefix
      && m[|RenderFailedPrefix|..|RenderFailedPrefix| + |reason|] == reason
      && m[|RenderFailedPrefix| + |reason|..] == RenderRemedy
  {
    var m := Message(RenderFailed(reason), stringify);
    assert m == RenderFailedPrefix + reason + RenderRemedy;
    JoinParts(RenderFailedPrefix + reason, RenderRemedy);
    JoinParts(RenderFailedPrefix, reason);
  }
}

=== FILE: host.dfy ===
/** The JavaScript host the library runs in, as a value: which of `require`,
    `window` and `globalThis` exist, what they hold, and the `fetch`
    implementations on offer. React's own functions are oracles held here. */
module Host {
  import opened Wrappers
  import opened JsValues
  import opened Http

  /** The `react` module, reduced to `isValidElement`, which may throw. */
  datatype ReactApi = ReactApi(isValidElement: JsValue -> Result<bool, string>)

  /** The `react-dom/server` module, reduced to `renderToString`, which may throw. */
  datatype DomServer = DomServer(renderToString: JsValue -> Result<string, string>)

  /** A CommonJS `require`: what `require('react')`, `require('react-dom/server')`
      and `await import('react-dom/server')` give (`None` or `Failure` when they throw). */
  datatype Loader = Loader(
    react: Option<ReactApi>,
    domServer: Result<DomServer, string>,
    importDomServer: Option<DomServer>)

  /** A browser `window`: its `React` and `ReactDOMServer` globals, when truthy. */
  datatype Window = Window(react: Option<ReactApi>, domServer: Option<DomServer>)

  /** `globalThis`: its `React` global, when truthy, and its `fetch`. */
  datatype Global = Global(react: Option<ReactApi>, fetch: Option<Transport>)

  /** `require` and `window` may be undefined; `globalThis` always exists.
      `nodeFetch` is what `import("node-fetch")` gives, `None` when it throws. */
  datatype Host = Host(
    require: Option<Loader>,
    window: Option<Window>,
    global: Global,
    nodeFetch: Option<Transport>)
}

=== FILE: http.dfy ===
/** The HTTP exchange as the client sees it: the request it builds and the
    response `fetch` gives back. */
module Http {
  import opened Wrappers
  import opened JsValues

  /** A request handed to `fetch`; `verb` is its `method`. The body is the JSON document itself:
      `JSON.stringify` is injective, so nothing is lost by not serialising it. */
  datatype HttpRequest = HttpRequest(url: string, verb: string, headers: map<string, string>, body: Json)

  /** A response: status line, headers keyed by lower-case name (as the Fetch
      `Headers` object looks them up), the body as JSON when it parses as JSON,
      and the body as raw bytes. */
  datatype Response = Response(
    status: nat,
    statusText: string,
    headers: map<string, string>,
    json: Option<Json>,
    bytes: seq<bv8>)
  {
    /** `response.ok`: the status is in the range 200-299. */
    predicate Ok() {
      200 <= status <= 299
    }
  }

  /** A `fetch` implementation: it resolves with a response or rejects with
      an error message. */
  type Transport = HttpRequest -> Result<Response, string>

  /** `headers.get(name)`: the header's value, or `null` when it is absent. */
  function HeaderGet(headers: map<string, string>, name: string): (r: Option<string>)
    ensures r.Some? <==> name in headers
    ensures r.Some? ==> r.value == headers[name]
  {
    if name in headers then Some(headers[name]) else None
  }
}

=== FILE: js_values.dfy ===
/** JavaScript values as the client library inspects them: the truthiness of
    loosely typed inputs, and the JSON documents exchanged with the service. */
module JsValues {
  import opened Wrappers

  /** A JavaScript value reduced to what decides its truthiness. Every object
      (a React element, an array, a function) is truthy and is told apart from
      the others only by an identity. */
  datatype JsValue =
    | Undefined
    | Null
    | Bool(b: bool)
    | Number(x: real)
    | NaN
    | Str(s: string)
    | Object(id: nat)

  /** `Boolean(v)`: what `filter(Boolean)` and `if (v)` test. */
  predicate Truthy(v: JsValue) {
    match v
    case Undefined => false
    case Null => false
    case Bool(b) => b
    case Number(x) => x != 0.0
    case NaN => false
    case Str(s) => s != ""
    case Object(_) => true
  }

  /** Truthiness of an optional string property: both `undefined` and ""
      are falsy. */
  predicate Present(s: Option<string>) {
    s.Some? && s.value != ""
  }

  /** The string property `s` as a loosely typed JavaScript value. */
  function AsJsValue(s: Option<string>): (v: JsValue)
    ensures Truthy(v) <==> Present(s)
  {
    match s
    case None => Undefined
    case Some(t) => Str(t)
  }

  /** A JSON document. An object keeps its members in insertion order, the
      order in which `JSON.stringify` writes them. */
  datatype Json =
    | JNull
    | JBool(b: bool)
    | JNumber(x: real)
    | JString(s: string)
    | JArray(items: seq<Json>)
    | JObject(fields: seq<(string, Json)>)

  /** Property access on an object's members: the value of the first member
      named `key`, or `undefined`. */
  function Lookup(fields: seq<(string, Json)>, key: string): (r: Option<Json>)
    ensures r.Some? ==> exists i :: 0 <= i < |fields| && fields[i] == (key, r.value)
    ensures r.None? <==> forall i :: 0 <= i < |fields| ==> fields[i].0 != key
  {
    if fields == [] then None
    else if fields[0].0 == key then Some(fields[0].1)
    else Lookup(fields[1..], key)
  }

  /** Looking a key up in two member lists written one after the other finds
      it in the first list when it is there, and in the second otherwise. */
  lemma {:induction false} LookupAppend(a: seq<(string, Json)>, b: seq<(string, Json)>, key: string)
    ensures Lookup(a + b, key) == if Lookup(a, key).Some? then Lookup(a, key) else Lookup(b, key)
  {
    if a != [] {
      assert (a + b)[1..] == a[1..] + b;
      LookupAppend(a[1..], b, key);
    } else {
      assert a + b == b;
    }
  }
}

=== FILE: jsx_renderer.dfy ===
/** Turning a JSX element into HTML with whatever React the host offers. */
module JsxRenderer {
  import opened Wrappers
  import opened JsValues
  import opened Errors
  import opened Host

  const NoDomServerMessage := "ReactDOMServer is not available. Please ensure react-dom is loaded."
  const UnknownEnvironmentMessage := "Unable to determine environment"

  /** The first probe: `require` exists and both `require('react')` and
      `require('react-dom/server')` succeed. */
  predicate RequireLoadsReact(h: Host) {
    h.require.Some? && h.require.value.react.Some? && h.require.value.domServer.Success?
  }

  /** `isReactAvailable()`: the `require` probe, else the browser's
      `window.React`, else `globalThis.React`. */
  function IsReactAvailable(h: Host): bool {
    if RequireLoadsReact(h) then true
    else if h.window.Some? then h.window.value.react.Some?
    else h.global.react.Some?
  }

  // The detection order as a list of probes, each of which either answers or
  // passes on to the next; the first answer wins and `false` is the default.

  function RequireProbe(h: Host): Option<bool> {
    if RequireLoadsReact(h) then Some(true) else None
  }

  function WindowProbe(h: Host): Option<bool> {
    if h.window.Some? then Some(h.window.value.react.Some?) else None
  }

  function GlobalProbe(h: Host): Option<bool> {
    if h.global.react.Some? then Some(true) else None
  }

  function FirstAnswer(probes: seq<Option<bool>>): bool {
    if probes == [] then false
    else if probes[0].Some? then probes[0].value
    else FirstAnswer(probes[1..])
  }

  /** Availability is the first answer among the require, window and global
      probes, and false when none answers. */
  lemma AvailabilityIsFirstProbe(h: Host)
    ensures IsReactAvailable(h) == FirstAnswer([RequireProbe(h), WindowProbe(h), GlobalProbe(h)])
  {
    var probes := [RequireProbe(h), WindowProbe(h), GlobalProbe(h)];
    assert probes[1..] == [WindowProbe(h), GlobalProbe(h)];
    assert probes[1..][1..] == [GlobalProbe(h)];
    assert FirstAnswer([GlobalProbe(h)]) == h.global.react.Some? by {
      assert [GlobalProbe(h)][1..] == [];
    }
    if !RequireLoadsReact(h) && h.window.None? {
      assert FirstAnswer(probes) == FirstAnswer(probes[1..]) == FirstAnswer(probes[1..][1..]);
    }
  }

  /** Once the require probe has failed, a defined `window` decides alone:
      `globalThis.React` is never consulted. */
  lemma WindowShadowsGlobal(h: Host, g: Global)
    requires !RequireLoadsReact(h) && h.window.Some?
    ensures IsReactAvailable(h.(global := g)) == IsReactAvailable(h)
    ensures IsReactAvailable(h) == h.window.value.react.Some?
  {
  }

  /** The React namespace `isJsxElement` asks: `require('react')` when
      `require` exists, else `window.React`, else `globalThis.React`. */
  function ElementCheckApi(h: Host): Option<ReactApi> {
    if h.require.Some? then h.require.value.react
    else if h.window.Some? then h.window.value.react
    else h.global.react
  }

  /** `isJsxElement(value)`: fails closed. It never throws; it is true only
      when React is available and the React it finds says the value is a
      valid element. */
  function IsJsxElement(v: JsValue, h: Host): (r: bool)
    ensures r ==> IsReactAvailable(h)
    ensures r ==> ElementCheckApi(h).Some? && ElementCheckApi(h).value.isValidElement(v) == Success(true)
  {
    if !IsReactAvailable(h) then false
    else
      match ElementCheckApi(h)
      case None => false
      case Some(react) =>
        match react.isValidElement(v)
        case Success(valid) => valid
        case Failure(_) => false
  }

  /** Every way `isValidElement` can fail to say yes — it throws or says no —
      and a missing React both give false; a yes from an available React
      gives true. */
  lemma IsJsxElementCases(v: JsValue, h: Host)
    ensures !IsReactAvailable(h) ==> !IsJsxElement(v, h)
    ensures ElementCheckApi(h).None? ==> !IsJsxElement(v, h)
    ensures ElementCheckApi(h).Some? && ElementCheckApi(h).value.isValidElement(v).Failure?
      ==> !IsJsxElement(v, h)
    ensures IsReactAvailable(h) && ElementCheckApi(h).Some?
      && ElementCheckApi(h).value.isValidElement(v) == Success(true)
      ==> IsJsxElement(v, h)
  {
  }

  /** The `react-dom/server` module `renderWithReact` finds, or the reason
      it finds none: with `require`, the dynamic import, else
      `require('react-dom/server')`; in a browser, `window.ReactDOMServer`. */
  function DomServerFor(h: Host): Result<DomServer, string> {
    if h.require.Some? then
      match h.require.value.importDomServer
      case Some(server) => Success(server)
      case None => h.require.value.domServer
    else if h.window.Some? then
      match h.window.value.domServer
      case Some(server) => Success(server)
      case None => Failure(NoDomServerMessage)
    else Failure(UnknownEnvironmentMessage)
  }

  /** `renderWithReact(element)`: every failure on the way, from finding
      `react-dom/server` to `renderToString` itself, comes out wrapped as a
      render failure carrying the original reason. */
  function RenderWithReact(v: JsValue, h: Host): (r: Result<string, Error>)
    ensures r.Failure? ==> r.error.RenderFailed?
    ensures DomServerFor(h).Failure? ==> r == Failure(RenderFailed(DomServerFor(h).error))
    ensures r.Success? ==>
      DomServerFor(h).Success? && DomServerFor(h).value.renderToString(v) == Success(r.value)
    ensures DomServerFor(h).Success? && DomServerFor(h).value.renderToString(v).Success? ==>
      r == Success(DomServerFor(h).value.renderToString(v).value)
    ensures DomServerFor(h).Success? && DomServerFor(h).value.renderToString(v).Failure? ==>
      r == Failure(RenderFailed(DomServerFor(h).value.renderToString(v).error))
  {
    match DomServerFor(h)
    case Failure(reason) => Failure(RenderFailed(reason))
    case Success(server) =>
      match server.renderToString(v)
      case Success(html) => Success(html)
      case Failure(reason) => Failure(RenderFailed(reason))
  }

  /** `renderJsxToHtml(element)`: refuses without attempting a render when
      React is unavailable, and otherwise yields exactly what
      `renderToString` returned or a wrapped render failure. */
  function RenderJsxToHtml(v: JsValue, h: Host): (r: Result<string, Error>)
    ensures !IsReactAvailable(h) ==> r == Failure(ReactUnavailable)
    ensures IsReactAvailable(h) ==> r == RenderWithReact(v, h)
    ensures r.Failure? ==> r.error == ReactUnavailable || r.error.RenderFailed?
    ensures r.Success? ==>
      && IsReactAvailable(h)
      && DomServerFor(h).Success?
      && DomServerFor(h).value.renderToString(v) == Success(r.value)
  {
    if !IsReactAvailable(h) then Failure(ReactUnavailable) else RenderWithReact(v, h)
  }

  /** When React is found only on `globalThis`, it counts as available, but
      rendering always fails: `renderWithReact` has no branch for a host with
      neither `require` nor `window`. */
  lemma GlobalOnlyReactNeverRenders(v: JsValue, h: Host)
    requires h.require.None? && h.window.None? && h.global.react.Some?
    ensures IsReactAvailable(h)
    ensures RenderJsxToHtml(v, h) == Failure(RenderFailed(UnknownEnvironmentMessage))
  {
  }

  /** In a browser whose `window.React` exists but `window.ReactDOMServer`
      does not, rendering fails with the wrapped "not available" reason. */
  lemma BrowserWithoutDomServer(v: JsValue, h: Host)
    requires h.require.None? && h.window.Some?
    requires h.window.value.react.Some? && h.window.value.domServer.None?
    ensures RenderJsxToHtml(v, h) == Failure(RenderFailed(NoDomServerMessage))
  {
  }

  /** With `require` defined but `react` not loadable through it, a React
      found on `window` or `globalThis` makes React available, yet no value
      is accepted as an element: `isJsxElement` only asks the required React. */
  lemma RequireWithoutReactRejectsEveryElement(v: JsValue, h: Host)
    requires h.require.Some? && h.require.value.react.None?
    ensures !IsJsxElement(v, h)
  {
  }
}

=== FILE: operations.dfy ===
/** `createPdf` and `createScreenshot`. The two operations run the same
    pipeline — validate the sources, render JSX, check `customCss`, assemble
    the body, send it, read the headers — and differ only in the endpoint, the
    default content type and the name of the options member. */
module Operations {
  import opened Wrappers
  import opened JsValues
  import opened Decimal
  import opened Errors
  import opened Http
  import opened Host
  import opened JsxRenderer
  import opened ApiClient

  datatype Operation = Pdf | Screenshot

  function Endpoint(op: Operation): string {
    match op
    case Pdf => "/api/create/pdf"
    case Screenshot => "/api/create/screen-shot"
  }

  function DefaultContentType(op: Operation): string {
    match op
    case Pdf => "application/pdf"
    case Screenshot => "image/png"
  }

  /** The body member that carries `pdfOptions` or `screenshotOptions`. */
  function OptionsKey(op: Operation): string {
    match op
    case Pdf => "pdfOptions"
    case Screenshot => "screenshotOptions"
  }

  /** `CreatePdfOptions` / `CreateScreenshotOptions`. `jsx` is any JavaScript
      value; the operation-specific options object is passed through as its
      members. */
  datatype CreateOptions = CreateOptions(
    url: Option<string>,
    html: Option<string>,
    jsx: JsValue,
    customCss: Option<string>,
    options: Option<seq<(string, Json)>>)

  /** `PdfResult` / `ScreenshotResult`: a rate-limit counter is `None` when
      it is absent from the result object. */
  datatype DocumentResult = DocumentResult(
    data: seq<bv8>,
    contentType: string,
    rateLimitRemaining: Option<Parsed>,
    rateLimitLimit: Option<Parsed>)

  /** `[url, html, jsx].filter(Boolean).length`: empty strings do not count. */
  function SourcesGiven(o: CreateOptions): nat {
    var sources := [AsJsValue(o.url), AsJsValue(o.html), o.jsx];
    (if Truthy(sources[0]) then 1 else 0)
    + (if Truthy(sources[1]) then 1 else 0)
    + (if Truthy(sources[2]) then 1 else 0)
  }

  /** `finalHtml`: the rendered JSX when `jsx` is given, else `html`. */
  function ResolveHtml(o: CreateOptions, h: Host): (r: Result<Option<string>, Error>)
    ensures !Truthy(o.jsx) ==> r == Success(o.html)
    ensures Truthy(o.jsx) && !IsJsxElement(o.jsx, h) ==> r == Failure(InvalidJsx)
    ensures Truthy(o.jsx) && IsJsxElement(o.jsx, h) ==>
      match RenderJsxToHtml(o.jsx, h)
      case Success(html) => r == Success(Some(html))
      case Failure(e) => r == Failure(e)
  {
    if Truthy(o.jsx) then
      if !IsJsxElement(o.jsx, h) then Failure(InvalidJsx)
      else
        var html :- RenderJsxToHtml(o.jsx, h);
        Success(Some(html))
    else Success(o.html)
  }

  /** `...(value && { key: value })` for a string member. */
  function StringMember(key: string, value: Option<string>): seq<(string, Json)> {
    if Present(value) then [(key, JString(value.value))] else []
  }

  function OptionsMember(op: Operation, options: Option<seq<(string, Json)>>): seq<(string, Json)> {
    if options.Some? then [(OptionsKey(op), JObject(options.value))] else []
  }

  lemma LookupStringMember(key: string, value: Option<string>, k: string)
    ensures Lookup(StringMember(key, value), k) ==
      if k == key && Present(value) then Some(JString(value.value)) else None
  {
  }

  lemma LookupOptionsMember(op: Operation, options: Option<seq<(string, Json)>>, k: string)
    ensures Lookup(OptionsMember(op, options), k) ==
      if k == OptionsKey(op) && options.Some? then Some(JObject(options.value)) else None
  {
  }

  /** A key is looked up in four member lists, one after the other. */
  lemma LookupInFour(a: seq<(string, Json)>, b: seq<(string, Json)>, c: seq<(string, Json)>,
                     d: seq<(string, Json)>, key: string)
    ensures Lookup(a + b + c + d, key) ==
      if Lookup(a, key).Some? then Lookup(a, key)
      else if Lookup(b, key).Some? then Lookup(b, key)
      else if Lookup(c, key).Some? then Lookup(c, key)
      else Lookup(d, key)
  {
    LookupAppend(a + b + c, d, key);
    LookupAppend(a + b, c, key);
    LookupAppend(a, b, key);
  }

  /** The members of the body, in the order the object literal spreads them. */
  function BodyFields(op: Operation, url: Option<string>, html: Option<string>,
                      customCss: Option<string>, options: Option<seq<(string, Json)>>): seq<(string, Json)> {
    StringMember("url", url) + StringMember("html", html)
    + StringMember("customCss", customCss) + OptionsMember(op, options)
  }

  /** The position of a body member in the order the object literal spreads them:
      url, html, customCss, then the options. */
  function KeyRank(op: Operation, key: string): nat {
    if key == "url" then 0
    else if key == "html" then 1
    else if key == "customCss" then 2
    else if key == OptionsKey(op) then 3
    else 4
  }

  /** The members appear in strictly increasing spread order. */
  predicate InSpreadOrder(op: Operation, fields: seq<(string, Json)>) {
    forall i, j :: 0 <= i < j < |fields| ==> KeyRank(op, fields[i].0) < KeyRank(op, fields[j].0)
  }

  lemma InSpreadOrderAppend(op: Operation, x: seq<(string, Json)>, y: seq<(string, Json)>, bound: nat)
    requires InSpreadOrder(op, x) && InSpreadOrder(op, y)
    requires forall i :: 0 <= i < |x| ==> KeyRank(op, x[i].0) < bound
    requires forall j :: 0 <= j < |y| ==> bound <= KeyRank(op, y[j].0)
    ensures InSpreadOrder(op, x + y)
  {
    var xy := x + y;
    forall i, j | 0 <= i < j < |xy|
      ensures KeyRank(op, xy[i].0) < KeyRank(op, xy[j].0)
    {
      if j < |x| {
        assert xy[i] == x[i] && xy[j] == x[j];
      } else if i < |x| {
        assert xy[i] == x[i] && xy[j] == y[j - |x|];
      } else {
        assert xy[i] == y[i - |x|] && xy[j] == y[j - |x|];
      }
    }
  }

  /** The body lists its members in the order the object literal spreads them, so no key
      appears twice. */
  lemma {:induction false} BodyInSpreadOrder(op: Operation, url: Option<string>, html: Option<string>,
                                             customCss: Option<string>, options: Option<seq<(string, Json)>>)
    ensures InSpreadOrder(op, BodyFields(op, url, html, customCss, options))
  {
    var a := StringMember("url", url);
    var b := StringMember("html", html);
    var c := StringMember("customCss", customCss);
    var d := OptionsMember(op, options);
    StringMemberRank(op, "url", url, 0);
    StringMemberRank(op, "html", html, 1);
    StringMemberRank(op, "customCss", customCss, 2);
    OptionsMemberRank(op, options);
    InSpreadOrderAppend(op, a, b, 1);
    RanksBelow(op, a, b, 2);
    InSpreadOrderAppend(op, a + b, c, 2);
    RanksBelow(op, a + b, c, 3);
    InSpreadOrderAppend(op, a + b + c, d, 3);
  }

  lemma RanksBelow(op: Operation, x: seq<(string, Json)>, y: seq<(string, Json)>, bound: nat)
    requires forall i :: 0 <= i < |x| ==> KeyRank(op, x[i].0) < bound
    requires forall i :: 0 <= i < |y| ==> KeyRank(op, y[i].0) < bound
    ensures forall i :: 0 <= i < |x + y| ==> KeyRank(op, (x + y)[i].0) < bound
  {
  }

  lemma StringMemberRank(op: Operation, key: string, value: Option<string>, rank: nat)
    requires KeyRank(op, key) == rank
    ensures InSpreadOrder(op, StringMember(key, value))
    ensures forall i :: 0 <= i < |StringMember(key, value)| ==> KeyRank(op, StringMember(key, value)[i].0) == rank
  {
    MemberRank(op, StringMember(key, value), key, rank);
  }

  lemma OptionsMemberRank(op: Operation, options: Option<seq<(string, Json)>>)
    ensures InSpreadOrder(op, OptionsMember(op, options))
    ensures forall i :: 0 <= i < |OptionsMember(op, options)| ==> KeyRank(op, OptionsMember(op, options)[i].0) == 3
  {
    assert KeyRank(op, OptionsKey(op)) == 3 by {
      assert OptionsKey(op) != "url" && OptionsKey(op) != "html" && OptionsKey(op) != "customCss";
    }
    MemberRank(op, OptionsMember(op, options), OptionsKey(op), 3);
  }

  /** A list of at most one member with a key of the given rank. */
  lemma MemberRank(op: Operation, m: seq<(string, Json)>, key: string, rank: nat)
    requires |m| <= 1 && (forall i :: 0 <= i < |m| ==> m[i].0 == key)
    requires KeyRank(op, key) == rank
    ensures InSpreadOrder(op, m)
    ensures forall i :: 0 <= i < |m| ==> KeyRank(op, m[i].0) == rank
  {
  }

  /** Looking any key up in the body finds the member for that key, if any. */
  lemma LookupBody(op: Operation, url: Option<string>, html: Option<string>,
                   customCss: Option<string>, options: Option<seq<(string, Json)>>, k: string)
    ensures Lookup(BodyFields(op, url, html, customCss, options), k) ==
      if k == "url" && Present(url) then Some(JString(url.value))
      else if k == "html" && Present(html) then Some(JString(html.value))
      else if k == "customCss" && Present(customCss) then Some(JString(customCss.value))
      else if k == OptionsKey(op) && options.Some? then Some(JObject(options.value))
      else None
  {
    LookupInFour(StringMember("url", url), StringMember("html", html),
      StringMember("customCss", customCss), OptionsMember(op, options), k);
    LookupStringMember("url", url, k);
    LookupStringMember("html", html, k);
    LookupStringMember("customCss", customCss, k);
    LookupOptionsMember(op, options, k);
  }

  /** The request body: each member is there exactly when its value is
      truthy, holds that value, and no other member is ever written. */
  function AssembleBody(op: Operation, url: Option<string>, html: Option<string>,
                        customCss: Option<string>, options: Option<seq<(string, Json)>>): (body: Json)
    ensures body.JObject?
    ensures Lookup(body.fields, "url") == if Present(url) then Some(JString(url.value)) else None
    ensures Lookup(body.fields, "html") == if Present(html) then Some(JString(html.value)) else None
    ensures Lookup(body.fields, "customCss") ==
      if Present(customCss) then Some(JString(customCss.value)) else None
    ensures Lookup(body.fields, OptionsKey(op)) ==
      if options.Some? then Some(JObject(options.value)) else None
    ensures forall k :: Lookup(body.fields, k).Some? ==> k in {"url", "html", "customCss", OptionsKey(op)}
    ensures InSpreadOrder(op, body.fields)
    ensures forall i, j :: 0 <= i < j < |body.fields| ==> body.fields[i].0 != body.fields[j].0
  {
    var fields := BodyFields(op, url, html, customCss, options);
    LookupBody(op, url, html, customCss, options, "url");
    LookupBody(op, url, html, customCss, options, "html");
    LookupBody(op, url, html, customCss, options, "customCss");
    LookupBody(op, url, html, customCss, options, OptionsKey(op));
    forall k | Lookup(fields, k).Some?
      ensures k in {"url", "html", "customCss", OptionsKey(op)}
    {
      LookupBody(op, url, html, customCss, options, k);
    }
    BodyInSpreadOrder(op, url, html, customCss, options);
    JObject(fields)
  }

  /** Everything `createPdf` / `createScreenshot` does before the request:
      the checks, in the order `createPdf` runs them, then the body. */
  function PlanRequest(op: Operation, o: CreateOptions, h: Host): (r: Result<Json, Error>)
    ensures SourcesGiven(o) != 1 ==> r == Failure(WrongSourceCount)
    ensures SourcesGiven(o) == 1 && Truthy(o.jsx) && !IsJsxElement(o.jsx, h) ==> r == Failure(InvalidJsx)
    ensures SourcesGiven(o) == 1 && Present(o.url) && Present(o.customCss) ==> r == Failure(CssWithUrl)
    ensures r.Failure? ==> r.error.IsValidation() || r.error == ReactUnavailable || r.error.RenderFailed?
    ensures SourcesGiven(o) == 1 && ResolveHtml(o, h).Failure? ==> r == Failure(ResolveHtml(o, h).error)
    ensures SourcesGiven(o) == 1 && ResolveHtml(o, h).Success? && !(Present(o.url) && Present(o.customCss)) ==>
      r == Success(AssembleBody(op, o.url, ResolveHtml(o, h).value, o.customCss, o.options))
    ensures r.Success? ==> SourcesGiven(o) == 1 && !(Present(o.url) && Present(o.customCss))
    ensures r.Success? ==> r.value.JObject?
    ensures r.Success? ==>
      !(Lookup(r.value.fields, "url").Some? && Lookup(r.value.fields, "html").Some?)
  {
    if SourcesGiven(o) != 1 then Failure(WrongSourceCount)
    else
      var html :- ResolveHtml(o, h);
      if Present(o.customCss) && Present(o.url) then Failure(CssWithUrl)
      else Success(AssembleBody(op, o.url, html, o.customCss, o.options))
  }

  /** A URL source: the body holds the URL and the options, nothing else. */
  lemma UrlSourceBody(op: Operation, o: CreateOptions, h: Host)
    requires Present(o.url) && !Present(o.html) && !Truthy(o.jsx) && !Present(o.customCss)
    ensures PlanRequest(op, o, h).Success?
    ensures var fields := PlanRequest(op, o, h).value.fields;
      && Lookup(fields, "url") == Some(JString(o.url.value))
      && Lookup(fields, "html") == None
      && Lookup(fields, "customCss") == None
      && Lookup(fields, OptionsKey(op)) == if o.options.Some? then Some(JObject(o.options.value)) else None
  {
  }

  /** An HTML source: the body holds the HTML, the custom CSS when given and
      the options when given, and never a URL. */
  lemma HtmlSourceBody(op: Operation, o: CreateOptions, h: Host)
    requires Present(o.html) && !Present(o.url) && !Truthy(o.jsx)
    ensures PlanRequest(op, o, h).Success?
    ensures var fields := PlanRequest(op, o, h).value.fields;
      && Lookup(fields, "html") == Some(JString(o.html.value))
      && Lookup(fields, "url") == None
      && Lookup(fields, "customCss") ==
        (if Present(o.customCss) then Some(JString(o.customCss.value)) else None)
      && Lookup(fields, OptionsKey(op)) == if o.options.Some? then Some(JObject(o.options.value)) else None
  {
  }

  /** A JSX source that React accepts and renders: the body's HTML is what
      `renderToString` returned, when that is not empty, and there is no URL. */
  lemma JsxSourceBody(op: Operation, o: CreateOptions, h: Host)
    requires Truthy(o.jsx) && !Present(o.url) && !Present(o.html)
    requires IsJsxElement(o.jsx, h) && RenderJsxToHtml(o.jsx, h).Success?
    ensures PlanRequest(op, o, h).Success?
    ensures var html := RenderJsxToHtml(o.jsx, h).value;
      var fields := PlanRequest(op, o, h).value.fields;
      && Lookup(fields, "html") == (if html != "" then Some(JString(html)) else None)
      && Lookup(fields, "url") == None
      && Lookup(fields, "customCss") ==
        (if Present(o.customCss) then Some(JString(o.customCss.value)) else None)
      && Lookup(fields, OptionsKey(op)) == if o.options.Some? then Some(JObject(o.options.value)) else None
  {
  }

  /** In Node, with `react` and `react-dom/server` loadable, a JSX element that
      React accepts is sent as the HTML its `renderToString` produces. */
  lemma RenderedJsxReachesBody(op: Operation, o: CreateOptions, h: Host, html: string)
    requires Truthy(o.jsx) && !Present(o.url) && !Present(o.html)
    requires RequireLoadsReact(h)
    requires h.require.value.react.value.isValidElement(o.jsx) == Success(true)
    requires DomServerFor(h).value.renderToString(o.jsx) == Success(html) && html != ""
    ensures PlanRequest(op, o, h).Success?
    ensures Lookup(PlanRequest(op, o, h).value.fields, "html") == Some(JString(html))
    ensures Lookup(PlanRequest(op, o, h).value.fields, "url") == None
  {
    assert IsJsxElement(o.jsx, h);
    assert RenderJsxToHtml(o.jsx, h) == Success(html);
  }

  /** JSX that renders to the empty string passes every check, yet the body
      sent carries neither a URL nor any HTML. */
  lemma EmptyRenderSendsNoSource(op: Operation, o: CreateOptions, h: Host)
    requires Truthy(o.jsx) && !Present(o.url) && !Present(o.html)
    requires IsJsxElement(o.jsx, h) && RenderJsxToHtml(o.jsx, h) == Success("")
    ensures PlanRequest(op, o, h).Success?
    ensures Lookup(PlanRequest(op, o, h).value.fields, "url") == None
    ensures Lookup(PlanRequest(op, o, h).value.fields, "html") == None
  {
  }

  /** The PDF and screenshot operations accept and refuse exactly the same
      inputs, with the same errors. */
  lemma SameValidationForBothOperations(o: CreateOptions, h: Host)
    ensures PlanRequest(Pdf, o, h).Failure? <==> PlanRequest(Screenshot, o, h).Failure?
    ensures PlanRequest(Pdf, o, h).Failure? ==>
      PlanRequest(Pdf, o, h).error == PlanRequest(Screenshot, o, h).error
  {
  }

  /** `headers.get(name) ? parseInt(headers.get(name), 10) : undefined`:
      present exactly when the header is non-empty, even when it is not a
      number. */
  function RateLimit(headers: map<string, string>, name: string): (r: Option<Parsed>)
    ensures r.Some? <==> name in headers && headers[name] != ""
    ensures r.Some? ==> r.value == ParseInt(headers[name])
  {
    var value := HeaderGet(headers, name);
    if Present(value) then Some(ParseInt(value.value)) else None
  }

  /** A rate-limit header written as an integer is read back as that integer. */
  lemma {:induction false} RateLimitRoundTrip(headers: map<string, string>, name: string, n: int)
    requires name in headers && headers[name] == IntToString(n)
    ensures RateLimit(headers, name) == Some(Int(n))
  {
    ParseIntOfIntToString(n, "");
    assert IntToString(n) + "" == IntToString(n);
  }

  /** A non-empty rate-limit header without any digit still gives a counter,
      and that counter is `NaN`. */
  lemma NonNumericRateLimit(headers: map<string, string>, name: string)
    requires name in headers && headers[name] != ""
    requires forall i :: 0 <= i < |headers[name]| ==> !IsDigit(headers[name][i])
    ensures RateLimit(headers, name) == Some(NotANumber)
  {
  }

  /** A rate-limit header whose first character after an optional sign is
      not a digit gives a present `NaN` counter, even when digits follow. */
  lemma NonDigitStartRateLimit(headers: map<string, string>, name: string, sign: string, rest: string)
    requires sign == "" || sign == "+" || sign == "-"
    requires rest != [] && !IsDigit(rest[0])
    requires sign == "" ==> !IsJsWhitespace(rest[0]) && rest[0] != '+' && rest[0] != '-'
    requires name in headers && headers[name] == sign + rest
    ensures RateLimit(headers, name) == Some(NotANumber)
  {
    ParseIntOfNonDigitStart(sign, rest);
  }

  /** The result object built from the response: the bytes unchanged, the
      `content-type` header or the operation's default when it is absent or
      empty, and the two rate-limit counters. */
  function MapResult(op: Operation, reply: Reply): (r: DocumentResult)
    ensures r.data == reply.data
    ensures r.contentType != ""
    ensures "content-type" in reply.headers && reply.headers["content-type"] != "" ==>
      r.contentType == reply.headers["content-type"]
    ensures "content-type" !in reply.headers || reply.headers["content-type"] == "" ==>
      r.contentType == DefaultContentType(op)
    ensures r.rateLimitRemaining == RateLimit(reply.headers, "x-ratelimit-remaining")
    ensures r.rateLimitLimit == RateLimit(reply.headers, "x-ratelimit-limit")
  {
    var contentType := HeaderGet(reply.headers, "content-type");
    DocumentResult(
      reply.data,
      if Present(contentType) then contentType.value else DefaultContentType(op),
      RateLimit(reply.headers, "x-ratelimit-remaining"),
      RateLimit(reply.headers, "x-ratelimit-limit"))
  }

  lemma DecimalText42()
    ensures IntToString(42) == "42"
  {
    assert ToDecimal(4) == "4";
  }

  lemma DecimalText100()
    ensures IntToString(100) == "100"
  {
    assert ToDecimal(1) == "1";
    assert ToDecimal(10) == "10";
  }

  /** A PDF response with 42 of 100 requests left. */
  lemma PdfResponseWithRateLimits(data: seq<bv8>, headers: map<string, string>)
    requires "content-type" in headers && headers["content-type"] == "application/pdf"
    requires "x-ratelimit-remaining" in headers && headers["x-ratelimit-remaining"] == "42"
    requires "x-ratelimit-limit" in headers && headers["x-ratelimit-limit"] == "100"
    ensures MapResult(Pdf, Reply(data, headers))
      == DocumentResult(data, "application/pdf", Some(Int(42)), Some(Int(100)))
  {
    DecimalText42();
    DecimalText100();
    RateLimitRoundTrip(headers, "x-ratelimit-remaining", 42);
    RateLimitRoundTrip(headers, "x-ratelimit-limit", 100);
  }

  /** A successful response without any of the headers: the default content
      type and no rate-limit counters. */
  lemma BareResponse(op: Operation, data: seq<bv8>)
    ensures MapResult(op, Reply(data, map[])) == DocumentResult(data, DefaultContentType(op), None, None)
  {
  }

  /** One operation end to end. A failed check throws before any request is
      sent; otherwise the body goes to the operation's endpoint, and a reply
      is mapped into the result. */
  function Create(op: Operation, client: Client, o: CreateOptions, h: Host): (x: Exchange<DocumentResult>)
    ensures PlanRequest(op, o, h).Failure? ==>
      x == Exchange(None, Failure(PlanRequest(op, o, h).error))
    ensures x.sent.Some? ==>
      && PlanRequest(op, o, h).Success?
      && x.sent.value.request.url == client.baseUrl + Endpoint(op)
      && x.sent.value.request.body == PlanRequest(op, o, h).value
    ensures PlanRequest(op, o, h).Success? ==>
      var y := Request(client, Endpoint(op), PlanRequest(op, o, h).value, h);
      && x.sent == y.sent
      && (y.result.Success? ==> x.result == Success(MapResult(op, y.result.value)))
      && (y.result.Failure? ==> x.result == Failure(y.result.error))
  {
    match PlanRequest(op, o, h)
    case Failure(e) => Exchange(None, Failure(e))
    case Success(body) =>
      var y := Request(client, Endpoint(op), body, h);
      match y.result
      case Success(reply) => Exchange(y.sent, Success(MapResult(op, reply)))
      case Failure(e) => Exchange(y.sent, Failure(e))
  }

  /** No validation error ever comes with a request: every check runs before
      `client.request`. */
  lemma ValidationBeforeRequest(op: Operation, client: Client, o: CreateOptions, h: Host)
    ensures Create(op, client, o, h).result.Failure? && Create(op, client, o, h).result.error.IsValidation()
      ==> Create(op, client, o, h).sent.None?
  {
  }

  /** `createPdf(client, options)` */
  function CreatePdf(client: Client, o: CreateOptions, h: Host): (x: Exchange<DocumentResult>)
    ensures SourcesGiven(o) != 1 ==> x == Exchange(None, Failure(WrongSourceCount))
    ensures x.sent.Some? ==> x.sent.value.request.url == client.baseUrl + "/api/create/pdf"
    ensures x.result.Success? ==> x.result.value.contentType != ""
  {
    Create(Pdf, client, o, h)
  }

  /** `createScreenshot(client, options)` */
  function CreateScreenshot(client: Client, o: CreateOptions, h: Host): (x: Exchange<DocumentResult>)
    ensures SourcesGiven(o) != 1 ==> x == Exchange(None, Failure(WrongSourceCount))
    ensures x.sent.Some? ==> x.sent.value.request.url == client.baseUrl + "/api/create/screen-shot"
    ensures x.result.Success? ==> x.result.value.contentType != ""
  {
    Create(Screenshot, client, o, h)
  }
}

=== FILE: wrappers.dfy ===
/** Two small sum types used throughout the model: a value that may be
    missing (JavaScript's `undefined`), and the outcome of a call that either
    returns or throws. */
module Wrappers {

  /** `None` plays the part of JavaScript's `undefined`. */
  datatype Option<+T> = None | Some(value: T) {

    /** The value, or `default` when there is none. */
    function GetOr(default: T): T {
      match this
      case Some(v) => v
      case None => default
    }
  }

  /** A call that returns `Success(value)` or throws `Failure(error)`. */
  datatype Result<+T, +E> = Success(value: T) | Failure(error: E) {

    predicate IsFailure() {
      Failure?
    }

    function PropagateFailure<U>(): Result<U, E>
      requires Failure?
    {
      Failure(error)
    }

    function Extract(): T
      requires Success?
    {
      value
    }
  }
}
